=== FILE: README.md ===
# Virtual try-on catalog: a Dafny model

The virtual try-on app is a Streamlit page. A user picks clothing and
accessory images from a local catalog and sends them, with a photo of
themselves, to a remote image-generation service. This project models the
page's logic that does not depend on rendering, imaging or the network:

- **Catalog scanner** (`get_catalog_items`). It keeps the image files of a
  directory listing in listing order and gives each a display name, a path
  and a category.
- **Catalog cache** (`get_catalog_items_cached`). It remembers the first scan
  of each catalog path.
- **Thumbnail generator** (`create_thumbnail`). It checks a source image
  against a filesystem, modelled as the set of existing paths. It names the
  thumbnail `thumb_<name>` in a `thumbnails` directory and reuses a thumbnail
  that already exists.
- **Paginator** (`get_catalog_items_with_thumbnails`). It counts pages,
  clamps the requested page into range, slices the catalog and attaches a
  thumbnail path to every item on the page.
- **Session rules** from `app.py`:
  - toggling a catalog item in the selection list, and removing it;
  - the Prev/Next page buttons;
  - picking the first sample photo;
  - when a click on Generate starts a generation.

Every operation is a pure function. The state the source keeps in the
Streamlit session, in the `lru_cache` and on disk is passed in and returned
as values:
- the selection list is a `seq<string>`;
- the cache is a `map<string, seq<Item>>`;
- the filesystem is a `set<string>` of existing files and directories.

A directory listing is an input sequence, `None` when the directory is
missing. Whether the imaging library can shrink and save a source image is
an input set, `convertible`.

Files:
- `wrappers.dfy`: `Option`.
- `pathops.dfy`: POSIX `join`/`dirname`/`basename`, the stem of `splitext`,
  and ASCII `lower`/`title`/`replace`/`endswith` and substring tests.
- `catalog.dfy`: the scanner.
- `cache.dfy`: the memo cache.
- `thumbnails.dfy`: the thumbnail generator.
- `paginator.dfy`: the paginator.
- `paginator_examples.dfy`: a worked example of the paginator.
- `session.dfy`: the `app.py` rules.

Toggling always flips the membership of a path the list holds at most once.
A path held twice stays selected after one toggle, because `list.remove`
drops only its first copy. `Session.ToggleFlips` states the flip for
duplicate-free lists. The app's selection list starts empty and changes only
by toggles and removals, so it never holds duplicates (`Session.ToggleFlips`
also proves that toggling keeps it duplicate-free).

## Model

| member | source | states |
|---|---|---|
| `Catalog.KindOf` | utils.py:110 | every item of a catalog path is clothing exactly when the path contains the text "clothing", otherwise accessory |
| `Catalog.DisplayName` | utils.py:106 | the display name has the length of the file's stem and contains no underscore |
| `Catalog.DisplayNameIgnoringCase` | utils.py:106 | case aside, the display name is the file's stem with every underscore read as a space |
| `PathOps.StemDropsExtension` | utils.py:106 | for a slash-free file name with a character other than a dot before its last dot, the stem is the name without the extension from that dot on |
| `PathOps.Title` | utils.py:106 | title-casing keeps the length and every non-letter, changes only the case of letters, and makes a letter upper-case exactly when the character before it is not a letter or it comes first |
| `Catalog.ImageNamesExact` | utils.py:103-104 | a file name is kept exactly when it is in the listing and its lower-cased form ends in .png, .jpg or .jpeg |
| `Catalog.ImageNamesAppend` | utils.py:103-104 | filtering distributes over concatenation of listings, so kept names stay in listing order |
| `Catalog.ScanListing` | utils.py:103-111 | the scan loop yields one item per kept name, in order, item i built from the i-th kept name |
| `Catalog.GetCatalogItems` | utils.py:97-115 | a missing directory yields no items; otherwise item i has path join(catalog, i-th image name) and that name's display name; all items share the path-derived category and carry no thumbnail |
| `CatalogCache.GetCatalogItemsCached` | utils.py:74-85 | a stored path returns its stored items and leaves the cache alone; a new path is scanned and stored; no other entry changes |
| `CatalogCache.RepeatedLookupHits` | utils.py:74-85 | after one lookup, looking the same path up again returns the same items and the same cache, whatever the directory now lists |
| `Thumbnails.CreateThumbnail` | utils.py:117-157 | None with the filesystem unchanged exactly when the source is missing; an existing thumbnail is returned with only its directory ensured; otherwise the result is the thumbnail path, or the source path only when no thumbnail exists and the source does not convert; only the thumbnail and its directory can be added |
| `Thumbnails.CreateThumbnailFallback` | utils.py:145-157 | for an existing source without a thumbnail: a convertible source gets the thumbnail and its directory written and the thumbnail path returned; any other source gets its own path back with only the directory added |
| `Thumbnails.CreateThumbnailIdempotent` | utils.py:129-154 | a second call returns the same result and leaves the filesystem as the first call left it |
| `Thumbnails.ThumbnailPathShape` | utils.py:133-143 | the thumbnail's dirname is the thumbnail directory (by default `<dirname>/thumbnails`) and its basename is `thumb_` plus the image's basename |
| `PathOps.JoinSplits` | utils.py:143 | joining a directory and a plain file name gives back that directory as dirname and that name as basename |
| `PathOps.BaseNameIsLastComponent` | utils.py:142 | the basename is everything after the last slash of the path (the whole path when it has none), so it is a slash-free suffix |
| `PathOps.DirNameIsPrefix` | utils.py:135 | the dirname is the path up to and including its last slash, with trailing slashes stripped unless that head is all slashes; it is a prefix of the path |
| `Paginator.PageStartFormula` | utils.py:179 | the first index of a page, counted one page at a time, is `(page - 1) * perPage` |
| `Paginator.TotalPages` | utils.py:175 | the page count is at least 1, is 1 for an empty catalog, and otherwise is the least number of pages of the given size that hold every item |
| `Paginator.PageCountUnique` | utils.py:175 | at most one page count fits a catalog in that sense |
| `Paginator.TotalPagesFormula` | utils.py:175 | that page count equals `max(1, (total_items + items_per_page - 1) // items_per_page)` |
| `Paginator.PageCountFormula` | utils.py:175 | any page count that fits a catalog exactly is `max(1, (total_items + items_per_page - 1) // items_per_page)` |
| `Paginator.ClampPage` | utils.py:176 | the current page is always within 1..total pages, equals the request when that is valid, and is the nearest end otherwise |
| `Paginator.PageStartInRange` | utils.py:179 | the first index of a valid page lies inside the catalog, strictly when the catalog is non-empty |
| `Paginator.PageSlice` | utils.py:178-181 | the page is the contiguous run of the catalog from the page's first index, as long as perPage or the rest of the catalog, and empty only for an empty catalog |
| `Paginator.PagesUpToPrefix` | utils.py:178-181 | the first k pages laid end to end are the catalog items before page k+1 starts |
| `Paginator.PagesConcatenate` | utils.py:175-181 | pages 1 to the last, concatenated, reproduce the whole catalog in order |
| `Paginator.AttachThumbnail` | utils.py:184-186 | one pass keeps the item's name, path and category, gives it a thumbnail path, and only adds files |
| `Paginator.AttachThumbnailChoice` | utils.py:184-186 | the path one pass attaches is the thumbnail when one already exists beside an existing source or the source exists and converts; the item's own path when the source does not convert and has no thumbnail, or when it is missing, in which case nothing is written; the pass writes at most the thumbnail directory, and the thumbnail only for a convertible source |
| `Paginator.AttachThumbnails` | utils.py:183-186 | the loop gives every page item, in order, a thumbnail path and keeps its name, path and category; the filesystem only grows |
| `Paginator.AttachThumbnailsChoice` | utils.py:183-186 | each page item gets its own path or its thumbnail path by the same rules as a single pass, judged against the filesystem before and after the whole loop (so a thumbnail another page item writes under the same path counts as existing); the loop writes only the items' thumbnail directories and the thumbnails of convertible sources |
| `Paginator.ShowPage` | utils.py:178-186 | the items shown for a valid page are the catalog run from the page's first index, as many as remain up to perPage, empty only for an empty catalog; each gets, from the catalog item it shows, the thumbnail path the rules of a single pass allow; only the page's thumbnail directories and the thumbnails of its convertible sources are written |
| `Paginator.Paginate` | utils.py:172-194 | total items is the catalog length, the page count covers the catalog, the current page is the clamped request, the items are the catalog run of that page (at most perPage, empty iff the catalog is), each with the thumbnail path the rules of a single pass allow, writing only the page's thumbnail directories and the thumbnails of its convertible sources |
| `Paginator.GetCatalogItemsWithThumbnails` | utils.py:159-195 | the catalog served is the cache entry for the path, scanned from the listing and stored only on a miss with no other entry touched; the page over it has the catalog's length as total items, a page count that fits it exactly, the clamped current page, and the catalog run of that page with thumbnails by the single-pass rules, writing only that page's thumbnail directories and convertible sources' thumbnails |
| `Paginator.PageIndependentOfFilesystem` | utils.py:175-186 | the page numbers and entries shown do not depend on the filesystem or imaging outcome, only the thumbnails do |
| `PaginatorExamples.ThreeItemsTwoPerPage` | utils.py:175-181 | three items at two per page make two pages, the first with two items and the second with the last; page 0 clamps to 1 and page 1000000 to 2 |
| `Session.IndexOf` | app.py:175 | the position found holds the path and no earlier position does |
| `Session.RemoveFirst` | app.py:175 | removal deletes exactly the first occurrence of the path |
| `Session.RemoveFirstCounts` | app.py:175 | removal shortens the list by one and takes exactly one copy of the path out |
| `Session.RemoveFirstKeepsOthers` | app.py:175 | removal keeps every other path in its relative order |
| `Session.ToggleItemSelection` | app.py:167-177 | a selected path loses its first copy, every other entry keeping its place and order, and the list shrinks by one; an unselected path is appended at the end; all other paths keep their order |
| `Session.ToggleFlips` | app.py:174-177 | in a duplicate-free list, toggling flips the path's membership, changes no other membership, and keeps the list duplicate-free |
| `Session.ToggleTwiceRestores` | app.py:174-177 | toggling an unselected path twice restores the list exactly |
| `Session.RemoveSelected` | app.py:361-363 | the Remove button deletes the first copy of the path and keeps every other entry in order; a duplicate-free list stays duplicate-free and no longer holds the path |
| `Session.PaginationControls` | app.py:148-160 | Prev is drawn exactly after the first page and Next exactly before the last, so an in-range page with more than one page has at least one |
| `Session.PageAfterClick` | app.py:148-160 | a drawn Prev moves back one page, a drawn Next forward one; no click, or a click on a button that is not drawn, leaves the page unchanged; the page never moves by more than one, and an in-range page stays in range |
| `Session.ClicksStayInRange` | app.py:148-160 | any sequence of clicks keeps a page that starts in range within 1..total pages |
| `Session.FirstImageName` | app.py:207-213 | the filtered listing is empty exactly when the listing has no image, and otherwise starts with the first image in the listing |
| `Session.SamplePhoto` | app.py:206-216 | no sample photo exactly when the listing holds no image; otherwise the path of the first image in listing order |
| `Session.GenerateRequest` | app.py:317-335 | a generation is requested exactly when Generate is clicked with a non-empty selection and a photo set, and it gets that photo, the whole selection and the typed extra instructions |

## Left out

- `display_image` and `display_images`: Streamlit rendering with floating-point aspect-ratio resizing.
- `generate_try_on_image`, `load_config` and `get_aoai_client`: an HTTP request to the image-generation service, JSON configuration, base64 and image decoding. `Session.GenerateRequest` models only the decision to call it and its arguments.
- `save_uploaded_file`: random file names and file writes.
- `load_image_as_base64`: a wrapper around the library's base64 encoder.
- `preload_catalog_images` and `preload_thumbnails`: they only sequence scans and thumbnail calls that are already modelled.
- `main`: widget layout, tabs and `st.rerun`. Session values are passed in and returned instead.
- `Session.SamplePhoto`: does not model the `os.makedirs` of the sample directory (app.py:204) or the `sample_user_image` flag it sets (app.py:215); it returns only the chosen path, and a missing directory reads as an empty listing.
- `Paginator.AttachThumbnailsChoice`: `convertible` is keyed by path spelling, not by file, so two spellings of one file (`a/b.jpg`, `a//b.jpg`) may differ in it while sharing one thumbnail path; the model does not tie them together.
- `download_samples.py` and `copy_samples.py`: one-off download and copy scripts, pure I/O.
- `CatalogCache.GetCatalogItemsCached`: does not model the `lru_cache` bound of 100 entries or its eviction order. That is library behaviour; the model keeps every entry, so a hit always returns the stored value.
- `Catalog.GetCatalogItems`: the directory the scanner creates when it is missing is not added to the filesystem. An error raised while listing, reported and answered with the items gathered so far, is not modelled either.
- `Thumbnails.CreateThumbnail`: the pixel resize to 300x300 and JPEG quality are opaque. The fallback to the source path is modelled only for an imaging failure, not for a failure to create the thumbnail directory.
- `Thumbnails.CreateThumbnail`: `os.makedirs` also creates any missing parents of a caller-given thumbnail directory; the model adds only the directory itself, since the filesystem is a flat set of paths.
- `Thumbnails.CreateThumbnail`: the error message shown on the fallback path (utils.py:156) is UI output and is dropped.
- `PathOps.Title`: follows Python's `str.title` only for ASCII letters. Non-ASCII characters pass through unchanged and count as uncased, so an ASCII letter after a non-ASCII letter (the `c` of "éclair") is raised where Python lowers it.
- `PathOps.Lower`: follows Python's `str.lower` only for ASCII letters; other characters pass through unchanged.
- `Paginator.TotalPages`: requires a positive page size. The source divides by it, so 0 raises. A negative size would make Python floor-divide and slice from the end, which no caller does (every call passes 6).
- `Paginator.AttachThumbnails`: returns fresh items. The source writes `thumbnail_path` into the dictionaries held by the cache, so a later call hands back items already carrying the field. `main` does read the item dictionaries after `pagination_controls` (app.py:141-145) has rewritten them; it sees no difference only because `create_thumbnail` is idempotent and every call overwrites the field again.
- Two sessions scanning or writing thumbnails at once: concurrent sessions are not modelled.

=== FILE: cache.dfy ===
/**
 * The memoised catalog scan: a map from catalog path to the items its first
 * scan produced. A hit ignores the current directory listing, so later file
 * changes stay invisible until the entry is dropped.
 */
module CatalogCache {
  import opened Wrappers
  import opened Catalog

  type Cache = map<string, seq<Item>>

  /** The items a lookup returns, with the cache as it stands afterwards. */
  datatype Lookup = Lookup(items: seq<Item>, cache: Cache)

  /**
   * Looking up `catalogPath`: a stored entry is returned as is; otherwise the
   * directory is scanned from `listing` and the result stored under the path.
   */
  function GetCatalogItemsCached(cache: Cache, catalogPath: string, listing: Option<seq<string>>): (r: Lookup)
    ensures catalogPath in cache ==> r.items == cache[catalogPath] && r.cache == cache
    ensures catalogPath !in cache ==> r.items == GetCatalogItems(catalogPath, listing)
    ensures catalogPath in r.cache && r.cache[catalogPath] == r.items
    ensures r.cache.Keys == cache.Keys + {catalogPath}
    ensures forall k :: k in cache ==> r.cache[k] == cache[k]
  {
    if catalogPath in cache then Lookup(cache[catalogPath], cache)
    else
      var items := GetCatalogItems(catalogPath, listing);
      Lookup(items, cache[catalogPath := items])
  }

  /**
   * Once a path has been looked up, looking it up again returns the same
   * items and leaves the cache alone, whatever the directory now lists.
   */
  lemma RepeatedLookupHits(cache: Cache, catalogPath: string, first: Option<seq<string>>, later: Option<seq<string>>)
    ensures var r1 := GetCatalogItemsCached(cache, catalogPath, first);
            GetCatalogItemsCached(r1.cache, catalogPath, later) == r1
  {
  }
}

=== FILE: catalog.dfy ===
/**
 * The catalog scanner: turns the listing of a catalog directory into catalog
 * items, keeping the image files in listing order.
 */
module Catalog {
  import opened Wrappers
  import opened PathOps

  /** The item category; the source spells these "clothing" and "accessory". */
  datatype Kind = Clothing | Accessory

  /**
   * One catalog entry. `thumbnail` is absent when the scanner produces the
   * item and is attached by the paginator.
   */
  datatype Item = Item(name: string, path: string, kind: Kind, thumbnail: Option<string>)

  /** A file name is an image when its lower-cased form ends in .png, .jpg or .jpeg. */
  predicate IsImageName(filename: string) {
    var lower := Lower(filename);
    EndsWith(lower, ".png") || EndsWith(lower, ".jpg") || EndsWith(lower, ".jpeg")
  }

  /** The category of every item of a catalog directory, read off its path. */
  function KindOf(catalogPath: string): (k: Kind)
    ensures k == Clothing <==> Contains(catalogPath, "clothing")
  {
    if Contains(catalogPath, "clothing") then Clothing else Accessory
  }

  /**
   * The display name of a file: its stem with underscores turned into
   * spaces, title-cased. The name keeps the stem's length and has no underscore.
   */
  function DisplayName(filename: string): (r: string)
    ensures |r| == |Stem(filename)|
    ensures '_' !in r
  {
    var spaced := ReplaceChar(Stem(filename), '_', ' ');
    var r := Title(spaced);
    assert forall k :: 0 <= k < |r| ==> r[k] != '_' by {
      forall k | 0 <= k < |r|
        ensures r[k] != '_'
      {
        assert spaced[k] != '_';
        if !IsLetter(spaced[k]) { assert r[k] == spaced[k]; }
      }
    }
    r
  }

  /**
   * Case aside, the display name is the stem with each underscore read as a
   * space: only the case of letters changes.
   */
  lemma DisplayNameIgnoringCase(filename: string)
    ensures var r := DisplayName(filename);
            var stem := Stem(filename);
            |r| == |stem|
            && forall k :: 0 <= k < |r| ==> ToLowerChar(r[k]) == ToLowerChar(if stem[k] == '_' then ' ' else stem[k])
  {
    var spaced := ReplaceChar(Stem(filename), '_', ' ');
    assert DisplayName(filename) == Title(spaced);
  }

  /** The item the scanner builds for one image file of `catalogPath`. */
  function MakeItem(catalogPath: string, filename: string): Item {
    Item(DisplayName(filename), Join(catalogPath, filename), KindOf(catalogPath), None)
  }

  /** Reference definition: the image file names of a listing, in listing order. */
  function ImageNames(names: seq<string>): seq<string> {
    if |names| == 0 then []
    else (if IsImageName(names[0]) then [names[0]] else []) + ImageNames(names[1..])
  }

  /** Filtering a listing distributes over concatenation, so it keeps listing order. */
  lemma {:induction false} ImageNamesAppend(a: seq<string>, b: seq<string>)
    ensures ImageNames(a + b) == ImageNames(a) + ImageNames(b)
  {
    if |a| == 0 {
      assert a + b == b;
    } else {
      assert (a + b)[1..] == a[1..] + b;
      ImageNamesAppend(a[1..], b);
    }
  }

  /** A name is kept exactly when it is in the listing and is an image name. */
  lemma {:induction false} ImageNamesExact(names: seq<string>, f: string)
    ensures f in ImageNames(names) <==> f in names && IsImageName(f)
  {
    if |names| > 0 {
      ImageNamesExact(names[1..], f);
      assert names == [names[0]] + names[1..];
    }
  }

  /**
   * The scan loop over a directory listing: one item per image file,
   * appended in listing order.
   */
  function ScanListing(catalogPath: string, names: seq<string>): (r: seq<Item>)
    ensures |r| == |ImageNames(names)|
    ensures forall i :: 0 <= i < |r| ==> r[i] == MakeItem(catalogPath, ImageNames(names)[i])
  {
    if |names| == 0 then []
    else
      var last := names[|names| - 1];
      var init := names[..|names| - 1];
      assert names == init + [last];
      ImageNamesAppend(init, [last]);
      assert ImageNames([last]) == (if IsImageName(last) then [last] else []) + ImageNames([]);
      ScanListing(catalogPath, init) + (if IsImageName(last) then [MakeItem(catalogPath, last)] else [])
  }

  /**
   * Scanning a catalog directory. `listing` is the directory's listing, or
   * None when the directory does not exist, which yields no items.
   */
  function GetCatalogItems(catalogPath: string, listing: Option<seq<string>>): (r: seq<Item>)
    ensures listing.None? ==> r == []
    ensures listing.Some? ==> |r| == |ImageNames(listing.value)|
    ensures listing.Some? ==> forall i :: 0 <= i < |r| ==>
      r[i].path == Join(catalogPath, ImageNames(listing.value)[i])
      && r[i].name == DisplayName(ImageNames(listing.value)[i])
    ensures forall i :: 0 <= i < |r| ==>
      && (r[i].kind == Clothing <==> Contains(catalogPath, "clothing"))
      && r[i].thumbnail == None
      && '_' !in r[i].name
  {
    match listing
    case None => []
    case Some(names) => ScanListing(catalogPath, names)
  }
}

=== FILE: paginator.dfy ===
/**
 * The paginator: splits a catalog into fixed-size, 1-indexed pages, clamps
 * the requested page into range, and attaches a thumbnail path to every item
 * of the page it returns.
 */
module Paginator {
  import opened Wrappers
  import opened Catalog
  import opened CatalogCache
  import opened Thumbnails

  function Min(a: int, b: int): int { if a <= b then a else b }

  function Max(a: int, b: int): int { if a >= b then a else b }

  /**
   * Index in the catalog of the first item of page `page` (1-indexed): every
   * page before it holds `perPage` items. Stated by steps of one page, so
   * that reasoning about pages stays additive; `PageStartFormula` gives the
   * product form.
   */
  function PageStart(page: int, perPage: int): (r: int)
    requires page >= 1
    ensures perPage >= 0 ==> r >= 0
  {
    if page == 1 then 0 else PageStart(page - 1, perPage) + perPage
  }

  /** The first index of page `page` is `(page - 1) * perPage`. */
  lemma {:induction false} PageStartFormula(page: int, perPage: int)
    requires page >= 1
    ensures PageStart(page, perPage) == (page - 1) * perPage
  {
    if page > 1 {
      PageStartFormula(page - 1, perPage);
    }
  }

  /** Later pages start no earlier. */
  lemma {:induction false} PageStartMonotone(a: int, b: int, perPage: int)
    requires 1 <= a <= b && perPage >= 0
    ensures PageStart(a, perPage) <= PageStart(b, perPage)
    decreases b - a
  {
    if a < b {
      PageStartMonotone(a + 1, b, perPage);
    }
  }

  /**
   * `pages` pages of `perPage` are exactly enough for `totalItems` items:
   * one page when there are none, else the fewest pages that hold them all.
   */
  predicate IsPageCount(pages: int, totalItems: nat, perPage: int) {
    && pages >= 1
    && (totalItems == 0 ==> pages == 1)
    && (totalItems > 0 ==> PageStart(pages, perPage) < totalItems <= PageStart(pages + 1, perPage))
  }

  /** At most one number of pages fits a catalog exactly. */
  lemma PageCountUnique(a: int, b: int, totalItems: nat, perPage: int)
    requires perPage > 0
    requires IsPageCount(a, totalItems, perPage) && IsPageCount(b, totalItems, perPage)
    ensures a == b
  {
    if a < b {
      PageStartMonotone(a + 1, b, perPage);
    } else if b < a {
      PageStartMonotone(b + 1, a, perPage);
    }
  }

  /**
   * The number of pages: `totalItems` rounded up to whole pages of
   * `perPage`, and a single empty page for an empty catalog.
   */
  function TotalPages(totalItems: nat, perPage: int): (r: int)
    requires perPage > 0
    ensures IsPageCount(r, totalItems, perPage)
    decreases totalItems
  {
    if totalItems <= perPage then 1 else 1 + TotalPages(totalItems - perPage, perPage)
  }

  /** Facts about the rounded-up quotient `(n + p - 1) // p`. */
  lemma CeilDiv(n: nat, p: int)
    requires p > 0
    ensures n == 0 ==> (n + p - 1) / p == 0
    ensures n > 0 ==> var q := (n + p - 1) / p; q >= 1 && (q - 1) * p < n <= q * p
  {
    var q := (n + p - 1) / p;
    var m := (n + p - 1) % p;
    assert n + p - 1 == q * p + m && 0 <= m < p;
    if n > 0 {
      assert (q - 1) * p == q * p - p;
    }
  }

  /** The page count is `max(1, (totalItems + perPage - 1) // perPage)`. */
  lemma TotalPagesFormula(totalItems: nat, perPage: int)
    requires perPage > 0
    ensures TotalPages(totalItems, perPage) == Max(1, (totalItems + perPage - 1) / perPage)
  {
    var q := Max(1, (totalItems + perPage - 1) / perPage);
    CeilDiv(totalItems, perPage);
    PageStartFormula(q, perPage);
    PageStartFormula(q + 1, perPage);
    assert IsPageCount(q, totalItems, perPage);
    PageCountUnique(q, TotalPages(totalItems, perPage), totalItems, perPage);
  }

  /**
   * The page actually shown for a requested page: always a valid page,
   * the request itself when it is valid, else the nearest end.
   */
  function ClampPage(page: int, totalPages: int): (r: int)
    requires totalPages >= 1
    ensures 1 <= r <= totalPages
    ensures 1 <= page <= totalPages ==> r == page
    ensures page < 1 ==> r == 1
    ensures page > totalPages ==> r == totalPages
  {
    Min(Max(1, page), totalPages)
  }

  /** The first item of a valid page lies inside the catalog, strictly so unless it is empty. */
  lemma PageStartInRange(n: nat, page: int, perPage: int)
    requires perPage > 0 && 1 <= page <= TotalPages(n, perPage)
    ensures 0 <= PageStart(page, perPage) <= n
    ensures n > 0 ==> PageStart(page, perPage) < n
  {
    PageStartMonotone(1, page, perPage);
    PageStartMonotone(page, TotalPages(n, perPage), perPage);
  }

  /**
   * The items of page `page`: the contiguous run of the catalog starting at
   * `(page - 1) * perPage`, at most `perPage` long, empty only for an empty
   * catalog.
   */
  function PageSlice(all: seq<Item>, page: int, perPage: int): (r: seq<Item>)
    requires perPage > 0 && 1 <= page <= TotalPages(|all|, perPage)
    ensures 0 <= PageStart(page, perPage) <= |all|
    ensures |r| == Min(perPage, |all| - PageStart(page, perPage))
    ensures |r| <= perPage
    ensures |r| == 0 <==> |all| == 0
    ensures forall i :: 0 <= i < |r| ==> r[i] == all[PageStart(page, perPage) + i]
    ensures r == all[PageStart(page, perPage)..PageStart(page, perPage) + |r|]
  {
    var start := PageStart(page, perPage);
    PageStartInRange(|all|, page, perPage);
    var end := Min(start + perPage, |all|);
    all[start..end]
  }

  /** The first `k` pages laid end to end. */
  function PagesUpTo(all: seq<Item>, perPage: int, k: int): seq<Item>
    requires perPage > 0 && 0 <= k <= TotalPages(|all|, perPage)
    decreases k
  {
    if k == 0 then [] else PagesUpTo(all, perPage, k - 1) + PageSlice(all, k, perPage)
  }

  /** The first `k` pages are the items before page `k + 1` starts (or all of them). */
  lemma {:induction false} PagesUpToPrefix(all: seq<Item>, perPage: int, k: int)
    requires perPage > 0 && 0 <= k <= TotalPages(|all|, perPage)
    ensures PagesUpTo(all, perPage, k) == all[..Min(PageStart(k + 1, perPage), |all|)]
    decreases k
  {
    if k > 0 {
      PagesUpToPrefix(all, perPage, k - 1);
      var lo := PageStart(k, perPage);
      PageStartInRange(|all|, k, perPage);
      assert PageStart(k + 1, perPage) == lo + perPage;
      var hi := Min(lo + perPage, |all|);
      assert PageSlice(all, k, perPage) == all[lo..hi];
      assert PagesUpTo(all, perPage, k) == all[..lo] + all[lo..hi];
      assert all[..lo] + all[lo..hi] == all[..hi];
    }
  }

  /** Pages 1 to the last, concatenated, give back the whole catalog in order. */
  lemma PagesConcatenate(all: seq<Item>, perPage: int)
    requires perPage > 0
    ensures PagesUpTo(all, perPage, TotalPages(|all|, perPage)) == all
  {
    var total := TotalPages(|all|, perPage);
    PagesUpToPrefix(all, perPage, total);
    assert Min(PageStart(total + 1, perPage), |all|) == |all|;
  }

  /** Any exact page count is the rounded-up quotient, and one for an empty catalog. */
  lemma PageCountFormula(pages: int, totalItems: nat, perPage: int)
    requires perPage > 0 && IsPageCount(pages, totalItems, perPage)
    ensures pages == Max(1, (totalItems + perPage - 1) / perPage)
  {
    TotalPagesFormula(totalItems, perPage);
    PageCountUnique(pages, TotalPages(totalItems, perPage), totalItems, perPage);
  }

  /** Two catalog entries agree on everything but the thumbnail. */
  predicate SameEntry(a: Item, b: Item) {
    a.name == b.name && a.path == b.path && a.kind == b.kind
  }

  /** A page's items with thumbnails attached, and the filesystem afterwards. */
  datatype Attached = Attached(items: seq<Item>, fs: FileSystem)

  /**
   * The paths one pass for `item` may add: the thumbnail directory, and the
   * thumbnail itself only for a source the imaging library converts.
   */
  function ItemFiles(item: Item, convertible: set<string>): set<string> {
    {ThumbnailDir(item.path, None)} + (if item.path in convertible then {ThumbnailPath(item.path, None)} else {})
  }

  /** The paths the thumbnail loop over `items` may add. */
  function ThumbnailFiles(items: seq<Item>, convertible: set<string>): set<string> {
    if |items| == 0 then {}
    else ItemFiles(items[0], convertible) + ThumbnailFiles(items[1..], convertible)
  }

  /**
   * `shown` is `item` with the thumbnail path the loop attaches when the
   * filesystem is `before` ahead of the item and `after` once the whole loop
   * is done: the item's own path or its thumbnail path; the thumbnail when
   * it already existed beside an existing source, or when the source exists
   * and can be converted; the own path when the source is missing, or when
   * it cannot be converted and no thumbnail ever appeared.
   */
  predicate AttachedFor(item: Item, shown: Item, before: FileSystem, after: FileSystem, convertible: set<string>) {
    && SameEntry(shown, item)
    && (shown.thumbnail == Some(item.path) || shown.thumbnail == Some(ThumbnailPath(item.path, None)))
    && (item.path in before && ThumbnailPath(item.path, None) in before ==>
          shown.thumbnail == Some(ThumbnailPath(item.path, None)))
    && (item.path in before && item.path in convertible ==>
          shown.thumbnail == Some(ThumbnailPath(item.path, None)))
    && (item.path !in after ==> shown.thumbnail == Some(item.path))
    && (item.path !in convertible && ThumbnailPath(item.path, None) !in after ==>
          shown.thumbnail == Some(item.path))
  }

  /**
   * Each item of `shown` is the matching item of `run` with the thumbnail
   * `AttachedFor` allows, and going from `before` to `after` added only the
   * thumbnail directories of the run and the thumbnails of its convertible
   * sources.
   */
  predicate AttachedRun(run: seq<Item>, shown: seq<Item>, before: FileSystem, after: FileSystem, convertible: set<string>) {
    && |shown| == |run|
    && (forall i :: 0 <= i < |run| ==> AttachedFor(run[i], shown[i], before, after, convertible))
    && after <= before + ThumbnailFiles(run, convertible)
  }

  /** What holds against a later `before` and an earlier `after` holds against a wider window. */
  lemma AttachedForWidens(item: Item, shown: Item, before: FileSystem, after: FileSystem,
                          before': FileSystem, after': FileSystem, convertible: set<string>)
    requires AttachedFor(item, shown, before, after, convertible)
    requires before' <= before && after <= after'
    ensures AttachedFor(item, shown, before', after', convertible)
  {
  }

  /** One pass of the thumbnail loop: the item with its thumbnail path, and the filesystem after it. */
  datatype AttachedItem = AttachedItem(item: Item, fs: FileSystem)

  /**
   * The loop body for one item: the path `create_thumbnail` returns, or the
   * item's own path when that is absent or empty.
   */
  function AttachThumbnail(item: Item, fs: FileSystem, convertible: set<string>): (r: AttachedItem)
    ensures fs <= r.fs
    ensures SameEntry(r.item, item) && r.item.thumbnail.Some?
  {
    var out := CreateThumbnail(item.path, None, fs, convertible);
    var shown := if out.result.Some? && out.result.value != "" then out.result.value else item.path;
    AttachedItem(item.(thumbnail := Some(shown)), out.fs)
  }

  /**
   * The path one pass attaches is the item's own path or its thumbnail path,
   * as `AttachedFor` describes; the pass writes at most the thumbnail
   * directory, and the thumbnail only for a convertible source; a missing
   * source keeps its own path and writes nothing.
   */
  lemma AttachThumbnailChoice(item: Item, fs: FileSystem, convertible: set<string>)
    ensures var r := AttachThumbnail(item, fs, convertible);
            && r.fs <= fs + ItemFiles(item, convertible)
            && AttachedFor(item, r.item, fs, r.fs, convertible)
            && (item.path !in fs ==> r.fs == fs && r.item.thumbnail == Some(item.path))
  {
    if item.path in fs && ThumbnailPath(item.path, None) !in fs {
      CreateThumbnailFallback(item.path, None, fs, convertible);
    }
  }

  /**
   * The thumbnail loop over a page: each item, in order, keeps its entry and
   * gets a thumbnail path; thumbnail creation only ever adds files.
   */
  function AttachThumbnails(items: seq<Item>, fs: FileSystem, convertible: set<string>): (r: Attached)
    ensures |r.items| == |items|
    ensures fs <= r.fs
    ensures forall i :: 0 <= i < |items| ==> SameEntry(r.items[i], items[i]) && r.items[i].thumbnail.Some?
    decreases |items|
  {
    if |items| == 0 then Attached([], fs)
    else
      var head := AttachThumbnail(items[0], fs, convertible);
      var rest := AttachThumbnails(items[1..], head.fs, convertible);
      var r := Attached([head.item] + rest.items, rest.fs);
      assert forall i :: 0 < i < |items| ==> r.items[i] == rest.items[i - 1] && items[i] == items[1..][i - 1];
      r
  }

  /**
   * Which thumbnail each item of the loop gets: its own path or its thumbnail
   * path by the rules of `AttachedFor`; and only the thumbnail directories
   * and the thumbnails of convertible sources are written.
   */
  lemma {:induction false} AttachThumbnailsChoice(items: seq<Item>, fs: FileSystem, convertible: set<string>)
    ensures var r := AttachThumbnails(items, fs, convertible);
            AttachedRun(items, r.items, fs, r.fs, convertible)
    decreases |items|
  {
    if |items| > 0 {
      var head := AttachThumbnail(items[0], fs, convertible);
      var rest := AttachThumbnails(items[1..], head.fs, convertible);
      AttachThumbnailChoice(items[0], fs, convertible);
      AttachThumbnailsChoice(items[1..], head.fs, convertible);
      var r := AttachThumbnails(items, fs, convertible);
      assert r.items == [head.item] + rest.items && r.fs == rest.fs;
      assert ThumbnailFiles(items, convertible) == ItemFiles(items[0], convertible) + ThumbnailFiles(items[1..], convertible);
      AttachedForWidens(items[0], head.item, fs, head.fs, fs, r.fs, convertible);
      forall i | 0 < i < |items|
        ensures AttachedFor(items[i], r.items[i], fs, r.fs, convertible)
      {
        assert items[i] == items[1..][i - 1] && r.items[i] == rest.items[i - 1];
        AttachedForWidens(items[i], r.items[i], head.fs, r.fs, fs, r.fs, convertible);
      }
    }
  }

  datatype Pagination = Pagination(currentPage: int, totalPages: int, totalItems: int)

  datatype CatalogPage = CatalogPage(items: seq<Item>, pagination: Pagination)

  /** A page with the filesystem as thumbnail creation left it. */
  datatype Paged = Paged(page: CatalogPage, fs: FileSystem)

  /** `items` repeat, thumbnails aside, the catalog items from index `start` on. */
  predicate ShowsRun(items: seq<Item>, all: seq<Item>, start: int) {
    && 0 <= start && start + |items| <= |all|
    && forall i :: 0 <= i < |items| ==> SameEntry(items[i], all[start + i])
  }

  /**
   * `shown` is what a page starting at catalog index `start` shows, with
   * thumbnails created starting from `fs`: the catalog run from `start`, as
   * many items as remain up to `perPage`, none only for an empty catalog,
   * each with the thumbnail `AttachedFor` allows, and only the run's
   * thumbnail directories and convertible sources' thumbnails written.
   */
  predicate ShowsPage(shown: Attached, all: seq<Item>, start: int, perPage: int, fs: FileSystem, convertible: set<string>) {
    && ShowsRun(shown.items, all, start)
    && |shown.items| == Min(perPage, |all| - start)
    && (|shown.items| == 0 <==> |all| == 0)
    && (forall i :: 0 <= i < |shown.items| ==> shown.items[i].thumbnail.Some?)
    && AttachedRun(all[start..start + |shown.items|], shown.items, fs, shown.fs, convertible)
  }

  /**
   * The items shown for a valid page: the catalog run from the page's first
   * index, as many as remain up to `perPage`, none only for an empty
   * catalog, each with a thumbnail path.
   */
  function ShowPage(all: seq<Item>, page: int, perPage: int, fs: FileSystem, convertible: set<string>): (r: Attached)
    requires perPage > 0 && 1 <= page <= TotalPages(|all|, perPage)
    ensures ShowsPage(r, all, PageStart(page, perPage), perPage, fs, convertible)
    ensures fs <= r.fs
  {
    var start := PageStart(page, perPage);
    var pageItems := PageSlice(all, page, perPage);
    var attached := AttachThumbnails(pageItems, fs, convertible);
    PageSliceShowsRun(all, page, perPage);
    AttachThumbnailsChoice(pageItems, fs, convertible);
    AttachedPage(pageItems, attached, all, start, perPage, fs, convertible);
    attached
  }

  /** A run of the catalog, with thumbnails attached by the loop, shown as a page. */
  lemma AttachedPage(pageItems: seq<Item>, attached: Attached, all: seq<Item>, start: int, perPage: int,
                     fs: FileSystem, convertible: set<string>)
    requires 0 <= start && start + |pageItems| <= |all|
    requires pageItems == all[start..start + |pageItems|]
    requires |pageItems| == Min(perPage, |all| - start)
    requires |pageItems| == 0 <==> |all| == 0
    requires AttachedRun(pageItems, attached.items, fs, attached.fs, convertible)
    requires forall i :: 0 <= i < |attached.items| ==> attached.items[i].thumbnail.Some?
    ensures ShowsPage(attached, all, start, perPage, fs, convertible)
  {
    assert forall i :: 0 <= i < |pageItems| ==> SameEntry(attached.items[i], all[start + i]) by {
      forall i | 0 <= i < |pageItems|
        ensures SameEntry(attached.items[i], all[start + i])
      {
        assert pageItems[i] == all[start + i];
      }
    }
  }

  /** A page, as sliced, is a run of the catalog from the page's first index. */
  lemma PageSliceShowsRun(all: seq<Item>, page: int, perPage: int)
    requires perPage > 0 && 1 <= page <= TotalPages(|all|, perPage)
    ensures ShowsRun(PageSlice(all, page, perPage), all, PageStart(page, perPage))
  {
  }

  /**
   * `r` is page `page` of the catalog `all` at `perPage` items a page, its
   * thumbnails created starting from `fs`: the page count covers every
   * item, the current page is the request clamped into range, and the items
   * shown are the run starting at `(currentPage - 1) * perPage`, as many as
   * remain up to `perPage`, none only for an empty catalog, each with the
   * thumbnail `AttachedFor` allows.
   */
  predicate IsPage(r: Paged, all: seq<Item>, fs: FileSystem, convertible: set<string>, page: int, perPage: int) {
    var info := r.page.pagination;
    && info.totalItems == |all|
    && IsPageCount(info.totalPages, |all|, perPage)
    && 1 <= info.currentPage <= info.totalPages
    && (1 <= page <= info.totalPages ==> info.currentPage == page)
    && (page < 1 ==> info.currentPage == 1)
    && (page > info.totalPages ==> info.currentPage == info.totalPages)
    && ShowsPage(Attached(r.page.items, r.fs), all, PageStart(info.currentPage, perPage), perPage, fs, convertible)
  }

  /**
   * Page `page` of the catalog `all`: the page count covers every item, the
   * current page is the request clamped into range, and the items shown are
   * the run starting at `(currentPage - 1) * perPage`, as many as remain up
   * to `perPage`, none only for an empty catalog, each with a thumbnail path.
   */
  function Paginate(all: seq<Item>, fs: FileSystem, convertible: set<string>,
                    page: int, perPage: int): (r: Paged)
    requires perPage > 0
    ensures IsPage(r, all, fs, convertible, page, perPage)
    ensures fs <= r.fs
  {
    var totalPages := TotalPages(|all|, perPage);
    var currentPage := ClampPage(page, totalPages);
    var shown := ShowPage(all, currentPage, perPage, fs, convertible);
    var r := Paged(CatalogPage(shown.items, Pagination(currentPage, totalPages, |all|)), shown.fs);
    assert Attached(r.page.items, r.fs) == shown && r.page.pagination.currentPage == currentPage;
    r
  }

  /** The page handed to the UI, with the cache and filesystem afterwards. */
  datatype PageResult = PageResult(page: CatalogPage, cache: Cache, fs: FileSystem)

  /**
   * Serving page `page` of `catalogPath`: the catalog is the cached entry
   * for the path, scanned from `listing` and stored only on a miss; the
   * page count is the catalog size rounded up to whole pages (at least one),
   * the current page is the request clamped into range, and the items shown
   * are the catalog run from that page's first index, each with the
   * thumbnail `AttachedFor` allows.
   */
  function GetCatalogItemsWithThumbnails(cache: Cache, catalogPath: string, listing: Option<seq<string>>,
                                         fs: FileSystem, convertible: set<string>,
                                         page: int, perPage: int): (r: PageResult)
    requires perPage > 0
    ensures catalogPath in r.cache
    ensures catalogPath in cache ==> r.cache == cache
    ensures catalogPath !in cache ==> r.cache == cache[catalogPath := GetCatalogItems(catalogPath, listing)]
    ensures IsPage(Paged(r.page, r.fs), r.cache[catalogPath], fs, convertible, page, perPage)
    ensures fs <= r.fs
  {
    var lookup := GetCatalogItemsCached(cache, catalogPath, listing);
    var items := lookup.items;
    var paged := Paginate(items, fs, convertible, page, perPage);
    var r := PageResult(paged.page, lookup.cache, paged.fs);
    assert r.cache[catalogPath] == items && r.page == paged.page && r.fs == paged.fs;
    r
  }

  /**
   * Which page is shown depends only on the requested page, never on the
   * thumbnail state: the items differ at most in their thumbnails.
   */
  lemma {:induction false} PageIndependentOfFilesystem(all: seq<Item>, fs1: FileSystem, fs2: FileSystem,
                                                     c1: set<string>, c2: set<string>, page: int, perPage: int)
    requires perPage > 0
    ensures var p1 := Paginate(all, fs1, c1, page, perPage).page;
            var p2 := Paginate(all, fs2, c2, page, perPage).page;
            p1.pagination == p2.pagination
            && |p1.items| == |p2.items|
            && forall i :: 0 <= i < |p1.items| ==> SameEntry(p1.items[i], p2.items[i])
  {
    var p1 := Paginate(all, fs1, c1, page, perPage).page;
    var p2 := Paginate(all, fs2, c2, page, perPage).page;
    var start := PageStart(p1.pagination.currentPage, perPage);
    assert ShowsRun(p1.items, all, start) && ShowsRun(p2.items, all, start);
  }
}

=== FILE: paginator_examples.dfy ===
/** A worked example of the paginator on a small catalog. */
module PaginatorExamples {
  import opened Catalog
  import opened Paginator

  /** Three items, two per page: page 1 holds the first two items, page 2 the last one. */
  lemma ThreeItemsTwoPerPage(all: seq<Item>)
    requires |all| == 3
    ensures TotalPages(|all|, 2) == 2
    ensures PageSlice(all, 1, 2) == all[..2]
    ensures PageSlice(all, 2, 2) == all[2..]
    ensures ClampPage(0, TotalPages(|all|, 2)) == 1 && ClampPage(1000000, TotalPages(|all|, 2)) == 2
  {
    FirstOfThreePages(all);
    LastOfThreePages(all);
  }

  lemma FirstOfThreePages(all: seq<Item>)
    requires |all| == 3
    ensures PageSlice(all, 1, 2) == all[..2]
  {
  }

  lemma LastOfThreePages(all: seq<Item>)
    requires |all| == 3
    ensures PageSlice(all, 2, 2) == all[2..]
  {
  }
}

=== FILE: pathops.dfy ===
/**
 * The POSIX path and string operations the catalog code relies on:
 * `os.path.join`, `dirname`, `basename`, the stem of `splitext`, and the
 * ASCII behaviour of `str.lower`, `str.title`, `str.replace`, `str.endswith`
 * and the substring test `sub in s`.
 */
module PathOps {

  /** Index of the last occurrence of `c` in `s`, or -1 (Python's `s.rfind(c)`). */
  function RFind(s: string, c: char): (i: int)
    ensures -1 <= i < |s|
    ensures i >= 0 ==> s[i] == c
    ensures forall k :: i < k < |s| ==> s[k] != c
  {
    if |s| == 0 then -1
    else if s[|s| - 1] == c then |s| - 1
    else RFind(s[..|s| - 1], c)
  }

  /** True when every character of `s` is a slash. */
  predicate AllSlashes(s: string) {
    forall k :: 0 <= k < |s| ==> s[k] == '/'
  }

  /** `s.rstrip('/')`. */
  function RStripSlashes(s: string): (r: string)
    ensures |r| <= |s| && r == s[..|r|]
    ensures |r| > 0 ==> r[|r| - 1] != '/'
    ensures AllSlashes(s[|r|..])
  {
    if |s| > 0 && s[|s| - 1] == '/' then RStripSlashes(s[..|s| - 1]) else s
  }

  /** `os.path.join(a, b)` on POSIX: an absolute `b` replaces `a`; a separator is inserted when `a` needs one. */
  function Join(a: string, b: string): string {
    if |b| > 0 && b[0] == '/' then b
    else if |a| == 0 || a[|a| - 1] == '/' then a + b
    else a + "/" + b
  }

  /**
   * `os.path.basename(p)`: everything after the last slash, collected from
   * the end of the path back to that slash.
   */
  function BaseName(p: string): string {
    if |p| == 0 || p[|p| - 1] == '/' then "" else BaseName(p[..|p| - 1]) + [p[|p| - 1]]
  }

  /**
   * The basename is everything after the last slash, `p[p.rfind('/') + 1:]`:
   * a slash-free suffix of the path.
   */
  lemma {:induction false} BaseNameIsLastComponent(p: string)
    ensures BaseName(p) == p[RFind(p, '/') + 1..]
    ensures '/' !in BaseName(p)
    ensures |BaseName(p)| <= |p| && BaseName(p) == p[|p| - |BaseName(p)|..]
  {
    if |p| > 0 && p[|p| - 1] != '/' {
      var init := p[..|p| - 1];
      BaseNameIsLastComponent(init);
      assert RFind(p, '/') == RFind(init, '/');
      assert p == init + [p[|p| - 1]];
      assert p[RFind(p, '/') + 1..] == init[RFind(init, '/') + 1..] + [p[|p| - 1]];
    }
  }

  /** A slash-free name after a slash is the basename. */
  lemma {:induction false} BaseNameAfterSlash(q: string, name: string)
    requires '/' !in name
    ensures BaseName(q + "/" + name) == name
  {
    if |name| > 0 {
      var init := name[..|name| - 1];
      assert name[|name| - 1] in name;
      assert '/' !in init by {
        forall k | 0 <= k < |init| ensures init[k] != '/' { assert init[k] == name[k]; }
      }
      BaseNameAfterSlash(q, init);
      assert (q + "/" + name)[..|q + "/" + name| - 1] == q + "/" + init;
    }
  }

  /**
   * `os.path.dirname(p)`: everything up to the last slash, with trailing
   * slashes removed unless that part consists of slashes only. The part
   * after the last slash is dropped one character at a time.
   */
  function DirName(p: string): string {
    if |p| == 0 then p
    else if p[|p| - 1] != '/' then DirName(p[..|p| - 1])
    else if AllSlashes(p) then p
    else RStripSlashes(p)
  }

  /**
   * The dirname is the head of the path up to its last slash,
   * `p[:p.rfind('/') + 1]`, right-stripped of slashes unless it is all
   * slashes: a prefix of the path.
   */
  lemma {:induction false} DirNameIsPrefix(p: string)
    ensures var head := p[..RFind(p, '/') + 1];
            DirName(p) == if AllSlashes(head) then head else RStripSlashes(head)
    ensures |DirName(p)| <= |p| && DirName(p) == p[..|DirName(p)|]
  {
    if |p| > 0 && p[|p| - 1] != '/' {
      var init := p[..|p| - 1];
      DirNameIsPrefix(init);
      assert RFind(p, '/') == RFind(init, '/');
      assert p[..RFind(p, '/') + 1] == init[..RFind(init, '/') + 1];
      assert init[..|DirName(p)|] == p[..|DirName(p)|];
    } else if |p| > 0 {
      assert p[..RFind(p, '/') + 1] == p;
    }
  }

  /** A slash-free name at the end of a path does not change its dirname. */
  lemma {:induction false} DirNameSkipsName(q: string, name: string)
    requires '/' !in name
    ensures DirName(q + name) == DirName(q)
  {
    if |name| > 0 {
      var init := name[..|name| - 1];
      assert name[|name| - 1] in name;
      assert '/' !in init by {
        forall k | 0 <= k < |init| ensures init[k] != '/' { assert init[k] == name[k]; }
      }
      DirNameSkipsName(q, init);
      var p := q + name;
      assert p[|p| - 1] == name[|name| - 1];
      assert p[..|p| - 1] == q + init;
    } else {
      assert q + name == q;
    }
  }

  /**
   * The first component of `os.path.splitext(p)`: `p` without its extension.
   * The extension starts at the last dot of the last path component, and
   * only when that component has a character other than a dot before it, so
   * a leading dot (".png") does not start an extension.
   */
  function Stem(p: string): (r: string)
    ensures |r| <= |p| && r == p[..|r|]
  {
    var sep := RFind(p, '/');
    var dot := RFind(p, '.');
    if dot > sep && exists k :: sep + 1 <= k < dot && p[k] != '.' then p[..dot] else p
  }

  /**
   * For a slash-free name with something other than a dot before its last
   * dot, the stem drops exactly the extension: `splitext("a_b.png")[0]` is
   * "a_b".
   */
  lemma StemDropsExtension(base: string, ext: string)
    requires '/' !in base && '/' !in ext
    requires |ext| >= 1 && ext[0] == '.' && '.' !in ext[1..]
    requires exists k :: 0 <= k < |base| && base[k] != '.'
    ensures Stem(base + ext) == base
  {
    var p := base + ext;
    var dot := RFind(p, '.');
    assert p[|base|] == '.';
    assert forall j :: |base| < j < |p| ==> p[j] == ext[1..][j - |base| - 1];
    assert dot == |base|;
    assert forall j :: 0 <= j < |p| ==> p[j] == if j < |base| then base[j] else ext[j - |base|];
    assert RFind(p, '/') == -1;
    var k :| 0 <= k < |base| && base[k] != '.';
    assert p[k] != '.';
    assert p[..dot] == base;
  }

  predicate IsUpper(c: char) { 'A' <= c <= 'Z' }

  predicate IsLower(c: char) { 'a' <= c <= 'z' }

  /** The cased characters of the ASCII range. */
  predicate IsLetter(c: char) { IsUpper(c) || IsLower(c) }

  function ToLowerChar(c: char): (r: char)
    ensures IsLetter(r) <==> IsLetter(c)
    ensures !IsLetter(c) ==> r == c
    ensures !IsUpper(r)
  {
    if IsUpper(c) then (c as int - 'A' as int + 'a' as int) as char else c
  }

  function ToUpperChar(c: char): (r: char)
    ensures IsLetter(r) <==> IsLetter(c)
    ensures !IsLetter(c) ==> r == c
    ensures !IsLower(r)
    ensures ToLowerChar(r) == ToLowerChar(c)
  {
    if IsLower(c) then (c as int - 'a' as int + 'A' as int) as char else c
  }

  /** `s.lower()` on ASCII letters. */
  function Lower(s: string): (r: string)
    ensures |r| == |s|
    ensures forall k :: 0 <= k < |s| ==> r[k] == ToLowerChar(s[k])
  {
    seq(|s|, k requires 0 <= k < |s| => ToLowerChar(s[k]))
  }

  /**
   * `s.title()` on ASCII letters, continuing after a character whose
   * casedness is `afterCased`: a letter that follows a letter is lowered,
   * any other letter is raised, and non-letters pass through.
   */
  function TitleFrom(s: string, afterCased: bool): (r: string)
    ensures |r| == |s|
    ensures forall k :: 0 <= k < |s| ==> (IsLetter(r[k]) <==> IsLetter(s[k]))
    ensures forall k :: 0 <= k < |s| && !IsLetter(s[k]) ==> r[k] == s[k]
    ensures forall k :: 0 <= k < |s| && IsLetter(s[k]) ==>
      (IsUpper(r[k]) <==> (if k == 0 then !afterCased else !IsLetter(s[k - 1])))
    ensures forall k :: 0 <= k < |s| ==> ToLowerChar(r[k]) == ToLowerChar(s[k])
  {
    if |s| == 0 then []
    else
      var c := if afterCased then ToLowerChar(s[0]) else ToUpperChar(s[0]);
      [c] + TitleFrom(s[1..], IsLetter(s[0]))
  }

  /** `s.title()`: each run of letters starts upper-case and continues lower-case. */
  function Title(s: string): (r: string)
    ensures |r| == |s|
    ensures forall k :: 0 <= k < |s| && !IsLetter(s[k]) ==> r[k] == s[k]
    ensures forall k :: 0 <= k < |s| ==> ToLowerChar(r[k]) == ToLowerChar(s[k])
    ensures forall k :: 0 <= k < |s| && IsLetter(s[k]) ==>
      (IsUpper(r[k]) <==> (k == 0 || !IsLetter(s[k - 1])))
  {
    TitleFrom(s, false)
  }

  /** `s.replace(from, to)` for single characters. */
  function ReplaceChar(s: string, from: char, to: char): (r: string)
    ensures |r| == |s|
    ensures forall k :: 0 <= k < |s| ==> r[k] == (if s[k] == from then to else s[k])
  {
    seq(|s|, k requires 0 <= k < |s| => if s[k] == from then to else s[k])
  }

  /** `s.endswith(suffix)`. */
  predicate EndsWith(s: string, suffix: string) {
    |suffix| <= |s| && s[|s| - |suffix|..] == suffix
  }

  /** `sub` occurs in `s` starting at index `i`. */
  predicate OccursAt(s: string, sub: string, i: int) {
    0 <= i <= |s| - |sub| && s[i..i + |sub|] == sub
  }

  /** `sub in s` for strings: `sub` occurs at some position of `s`. */
  predicate Contains(s: string, sub: string) {
    exists i | 0 <= i <= |s| - |sub| :: OccursAt(s, sub, i)
  }

  /** Joining a plain file name under a directory gives back both parts. */
  lemma {:induction false} JoinSplits(dir: string, name: string)
    requires |dir| > 0 && dir[|dir| - 1] != '/'
    requires '/' !in name
    ensures DirName(Join(dir, name)) == dir
    ensures BaseName(Join(dir, name)) == name
  {
    var p := Join(dir, name);
    assert p == dir + "/" + name by {
      assert !(|name| > 0 && name[0] == '/') by {
        if |name| > 0 { assert name[0] in name; }
      }
    }
    BaseNameAfterSlash(dir, name);
    DirNameSkipsName(dir + "/", name);
    var head := dir + "/";
    assert !AllSlashes(head) by { assert head[|dir| - 1] == dir[|dir| - 1]; }
    assert head[..|head| - 1] == dir;
    assert RStripSlashes(head) == RStripSlashes(dir);
  }
}

=== FILE: session.dfy ===
/**
 * The per-session rules of the try-on page: the list of selected catalog
 * paths, the Prev/Next page buttons, picking a sample photo, and when the
 * Generate button may start a generation. Session state is passed in and
 * returned as plain values.
 */
module Session {
  import opened Wrappers
  import opened PathOps
  import opened Catalog

  /** No path appears twice in the list. */
  predicate NoDuplicates(s: seq<string>) {
    forall i, j :: 0 <= i < j < |s| ==> s[i] != s[j]
  }

  /** The list with every occurrence of `x` dropped, everything else in order. */
  function Without(s: seq<string>, x: string): (r: seq<string>)
    ensures x !in r
  {
    if |s| == 0 then []
    else (if s[0] == x then [] else [s[0]]) + Without(s[1..], x)
  }

  lemma {:induction false} WithoutAppend(a: seq<string>, b: seq<string>, x: string)
    ensures Without(a + b, x) == Without(a, x) + Without(b, x)
  {
    if |a| == 0 {
      assert a + b == b;
      assert Without(a, x) == [];
    } else {
      var head := if a[0] == x then [] else [a[0]];
      assert (a + b)[0] == a[0] && (a + b)[1..] == a[1..] + b;
      WithoutAppend(a[1..], b, x);
      assert Without(a + b, x) == head + (Without(a[1..], x) + Without(b, x));
      assert Without(a, x) == head + Without(a[1..], x);
    }
  }

  /** `list.index(x)`: the position of the first occurrence of `x`. */
  function IndexOf(s: seq<string>, x: string): (i: nat)
    requires x in s
    ensures i < |s| && s[i] == x
    ensures forall j :: 0 <= j < i ==> s[j] != x
  {
    if s[0] == x then 0 else 1 + IndexOf(s[1..], x)
  }

  /**
   * `list.remove(x)`: drops the first occurrence of `x`. The list must
   * contain `x`; Python raises otherwise.
   */
  function RemoveFirst(s: seq<string>, x: string): (r: seq<string>)
    requires x in s
    ensures r == s[..IndexOf(s, x)] + s[IndexOf(s, x) + 1..]
  {
    if s[0] == x then
      assert s == [s[0]] + s[1..];
      s[1..]
    else
      var tail := s[1..];
      var rest := RemoveFirst(tail, x);
      var k := IndexOf(tail, x);
      assert IndexOf(s, x) == k + 1;
      assert s == [s[0]] + tail;
      assert s[..k + 1] == [s[0]] + tail[..k];
      assert s[k + 2..] == tail[k + 1..];
      [s[0]] + rest
  }

  /** Removing the first occurrence takes exactly one copy of `x` out of the list. */
  lemma RemoveFirstCounts(s: seq<string>, x: string)
    requires x in s
    ensures |RemoveFirst(s, x)| == |s| - 1
    ensures multiset(RemoveFirst(s, x)) == multiset(s) - multiset{x}
  {
    var i := IndexOf(s, x);
    var before, after := s[..i], s[i + 1..];
    assert s == before + [x] + after;
    assert multiset(s) == multiset(before) + multiset([x]) + multiset(after);
    assert RemoveFirst(s, x) == before + after;
    assert multiset(before + after) == multiset(before) + multiset(after);
  }

  /** Removing the first occurrence keeps every other path in its order. */
  lemma {:induction false} RemoveFirstKeepsOthers(s: seq<string>, x: string)
    requires x in s
    ensures Without(RemoveFirst(s, x), x) == Without(s, x)
  {
    if s[0] == x {
      assert s == [s[0]] + s[1..];
      WithoutAppend([s[0]], s[1..], x);
    } else {
      RemoveFirstKeepsOthers(s[1..], x);
      assert s == [s[0]] + s[1..];
      WithoutAppend([s[0]], s[1..], x);
      WithoutAppend([s[0]], RemoveFirst(s[1..], x), x);
    }
  }

  /**
   * Toggling an item: a selected path is removed (its first occurrence),
   * any other path is appended at the end.
   */
  function ToggleItemSelection(selected: seq<string>, path: string): (r: seq<string>)
    ensures path in selected ==> |r| == |selected| - 1 && multiset(r) == multiset(selected) - multiset{path}
    ensures path in selected ==> r == selected[..IndexOf(selected, path)] + selected[IndexOf(selected, path) + 1..]
    ensures path !in selected ==> |r| == |selected| + 1 && multiset(r) == multiset(selected) + multiset{path}
    ensures path !in selected ==> r[..|selected|] == selected && r[|selected|] == path
    ensures Without(r, path) == Without(selected, path)
  {
    if path in selected then
      RemoveFirstKeepsOthers(selected, path);
      RemoveFirstCounts(selected, path);
      RemoveFirst(selected, path)
    else
      WithoutAppend(selected, [path], path);
      assert Without([path], path) == [] + Without([], path);
      selected + [path]
  }

  /** In a duplicate-free list, toggling flips the path's membership and keeps the list duplicate-free. */
  lemma ToggleFlips(selected: seq<string>, path: string)
    requires NoDuplicates(selected)
    ensures path in ToggleItemSelection(selected, path) <==> path !in selected
    ensures NoDuplicates(ToggleItemSelection(selected, path))
    ensures forall other :: other != path ==> (other in ToggleItemSelection(selected, path) <==> other in selected)
  {
    var r := ToggleItemSelection(selected, path);
    assert forall y :: y in r <==> y in multiset(r);
    assert forall y :: y in selected <==> y in multiset(selected);
    forall y { NoDuplicatesCountsOne(selected, y); }
    if path !in selected {
      assert multiset(selected)[path] == 0;
    }
    NoDuplicatesFromCounts(r);
  }

  /** A duplicate-free list holds each of its members exactly once. */
  lemma {:induction false} NoDuplicatesCountsOne(s: seq<string>, x: string)
    requires NoDuplicates(s)
    ensures multiset(s)[x] <= 1
  {
    if |s| > 0 {
      assert NoDuplicates(s[1..]);
      NoDuplicatesCountsOne(s[1..], x);
      assert s == [s[0]] + s[1..];
      assert s[0] !in s[1..];
    }
  }

  /** A list in which every path counts at most once has no duplicates. */
  lemma {:induction false} NoDuplicatesFromCounts(s: seq<string>)
    requires forall y :: multiset(s)[y] <= 1
    ensures NoDuplicates(s)
  {
    if |s| > 0 {
      assert s == [s[0]] + s[1..];
      assert forall y :: multiset(s[1..])[y] <= multiset(s)[y];
      NoDuplicatesFromCounts(s[1..]);
      assert s[0] !in s[1..] by {
        assert multiset(s)[s[0]] == multiset(s[1..])[s[0]] + 1;
      }
    }
  }

  /** Selecting a path that was not selected and then toggling it again gives back the list. */
  lemma {:induction false} ToggleTwiceRestores(selected: seq<string>, path: string)
    requires path !in selected
    ensures ToggleItemSelection(ToggleItemSelection(selected, path), path) == selected
  {
    var once := selected + [path];
    assert ToggleItemSelection(selected, path) == once;
    var i := IndexOf(once, path);
    assert i == |selected| by {
      assert forall k :: 0 <= k < |selected| ==> once[k] == selected[k];
    }
    assert once[..i] == selected;
  }

  /**
   * The Remove button beside a selected item: `list.remove` drops the first
   * copy of the path and keeps every other entry in its order.
   */
  function RemoveSelected(selected: seq<string>, path: string): (r: seq<string>)
    requires path in selected
    ensures r == selected[..IndexOf(selected, path)] + selected[IndexOf(selected, path) + 1..]
    ensures multiset(r) == multiset(selected) - multiset{path}
    ensures Without(r, path) == Without(selected, path)
    ensures NoDuplicates(selected) ==> path !in r && NoDuplicates(r)
  {
    var r := RemoveFirst(selected, path);
    assert multiset(r) == multiset(selected) - multiset{path} by {
      RemoveFirstCounts(selected, path);
    }
    assert Without(r, path) == Without(selected, path) by {
      RemoveFirstKeepsOthers(selected, path);
    }
    assert NoDuplicates(selected) ==> path !in r && NoDuplicates(r) by {
      if NoDuplicates(selected) {
        RemoveKeepsNoDuplicates(selected, path);
      }
    }
    r
  }

  /** Taking one entry out of a duplicate-free list leaves it duplicate-free. */
  lemma RemoveKeepsNoDuplicates(selected: seq<string>, path: string)
    requires path in selected && NoDuplicates(selected)
    ensures path !in RemoveFirst(selected, path)
    ensures NoDuplicates(RemoveFirst(selected, path))
  {
    var r := RemoveFirst(selected, path);
    RemoveFirstCounts(selected, path);
    NoDuplicatesCountsOne(selected, path);
    assert path !in multiset(r);
    forall y
      ensures multiset(r)[y] <= 1
    {
      NoDuplicatesCountsOne(selected, y);
    }
    NoDuplicatesFromCounts(r);
  }

  /** A click on one of the page buttons, or none. */
  datatype Click = NoClick | PrevClicked | NextClicked

  /** Which page buttons are drawn: Prev after the first page, Next before the last. */
  datatype Controls = Controls(showPrev: bool, showNext: bool)

  function PaginationControls(currentPage: int, totalPages: int): (r: Controls)
    ensures r.showPrev <==> currentPage > 1
    ensures r.showNext <==> currentPage < totalPages
    ensures 1 <= currentPage <= totalPages && totalPages > 1 ==> r.showPrev || r.showNext
  {
    Controls(currentPage > 1, currentPage < totalPages)
  }

  /**
   * The session's page after a click: a drawn Prev steps back one page, a
   * drawn Next forward one; a click on a button that is not drawn cannot
   * happen and leaves the page as it was.
   */
  function PageAfterClick(currentPage: int, totalPages: int, click: Click): (r: int)
    ensures click == PrevClicked && currentPage > 1 ==> r == currentPage - 1
    ensures click == NextClicked && currentPage < totalPages ==> r == currentPage + 1
    ensures 1 <= currentPage <= totalPages ==> 1 <= r <= totalPages
    ensures click == NoClick ==> r == currentPage
    ensures click == PrevClicked && currentPage <= 1 ==> r == currentPage
    ensures click == NextClicked && currentPage >= totalPages ==> r == currentPage
    ensures -1 <= r - currentPage <= 1
  {
    var controls := PaginationControls(currentPage, totalPages);
    match click
    case PrevClicked => if controls.showPrev then currentPage - 1 else currentPage
    case NextClicked => if controls.showNext then currentPage + 1 else currentPage
    case NoClick => currentPage
  }

  /** Any run of clicks keeps a session page that starts in range inside the range. */
  lemma {:induction false} ClicksStayInRange(currentPage: int, totalPages: int, clicks: seq<Click>)
    requires 1 <= currentPage <= totalPages
    ensures var p := PageAfterClicks(currentPage, totalPages, clicks); 1 <= p <= totalPages
    decreases |clicks|
  {
    if |clicks| > 0 {
      ClicksStayInRange(PageAfterClick(currentPage, totalPages, clicks[0]), totalPages, clicks[1..]);
    }
  }

  /** The session page after a run of clicks. */
  function PageAfterClicks(currentPage: int, totalPages: int, clicks: seq<Click>): int
    decreases |clicks|
  {
    if |clicks| == 0 then currentPage
    else PageAfterClicks(PageAfterClick(currentPage, totalPages, clicks[0]), totalPages, clicks[1..])
  }

  /**
   * "Use Sample Photo": the path of the first image in the listing of the
   * sample directory, or None when it holds no image.
   */
  function SamplePhoto(sampleDir: string, listing: seq<string>): (r: Option<string>)
    ensures r.None? <==> forall i :: 0 <= i < |listing| ==> !IsImageName(listing[i])
    ensures r.Some? ==> exists i :: 0 <= i < |listing| && IsImageName(listing[i])
                                   && r.value == Join(sampleDir, listing[i])
                                   && forall j :: 0 <= j < i ==> !IsImageName(listing[j])
  {
    var samples := ImageNames(listing);
    FirstImageName(listing);
    if |samples| > 0 then Some(Join(sampleDir, samples[0])) else None
  }

  /** The filter keeps something exactly when the listing has an image, and its first entry is the first image. */
  lemma {:induction false} FirstImageName(listing: seq<string>)
    ensures |ImageNames(listing)| == 0 <==> forall i :: 0 <= i < |listing| ==> !IsImageName(listing[i])
    ensures |ImageNames(listing)| > 0 ==>
              exists i :: 0 <= i < |listing| && IsImageName(listing[i])
                          && ImageNames(listing)[0] == listing[i]
                          && forall j :: 0 <= j < i ==> !IsImageName(listing[j])
  {
    if |listing| > 0 {
      FirstImageName(listing[1..]);
      if !IsImageName(listing[0]) {
        assert ImageNames(listing) == ImageNames(listing[1..]);
        if |ImageNames(listing)| > 0 {
          var i :| 0 <= i < |listing[1..]| && IsImageName(listing[1..][i])
                   && ImageNames(listing[1..])[0] == listing[1..][i]
                   && forall j :: 0 <= j < i ==> !IsImageName(listing[1..][j]);
          assert forall j :: 0 <= j < i + 1 ==> !IsImageName(listing[j]) by {
            forall j | 0 <= j < i + 1
              ensures !IsImageName(listing[j])
            {
              if j > 0 { assert listing[j] == listing[1..][j - 1]; }
            }
          }
        } else {
          assert forall i :: 0 <= i < |listing| ==> !IsImageName(listing[i]) by {
            forall i | 0 <= i < |listing|
              ensures !IsImageName(listing[i])
            {
              if i > 0 { assert listing[i] == listing[1..][i - 1]; }
            }
          }
        }
      }
    }
  }

  /** The Generate button is disabled while nothing is selected or no photo is set. */
  predicate GenerateDisabled(selected: seq<string>, userImagePath: Option<string>) {
    |selected| == 0 || userImagePath.None?
  }

  /**
   * The arguments of one try-on generation: the user's photo, the selected
   * item paths and the optional extra instructions typed by the user.
   */
  datatype TryOnRequest = TryOnRequest(userImage: string, items: seq<string>, promptAddon: string)

  /**
   * Pressing Generate: a click on the enabled button, re-checked inside the
   * handler, asks for a generation with the photo, the selected paths and
   * the text of the instructions box.
   */
  function GenerateRequest(clicked: bool, selected: seq<string>, userImagePath: Option<string>,
                           promptAddon: string): (r: Option<TryOnRequest>)
    ensures r.Some? <==> clicked && |selected| > 0 && userImagePath.Some?
    ensures r.Some? ==> r.value.items == selected && Some(r.value.userImage) == userImagePath
                        && r.value.promptAddon == promptAddon
  {
    if clicked && !GenerateDisabled(selected, userImagePath) then
      if userImagePath.Some? && |selected| > 0 then Some(TryOnRequest(userImagePath.value, selected, promptAddon))
      else None
    else None
  }
}

=== FILE: thumbnails.dfy ===
/**
 * The thumbnail generator over an abstract filesystem: the set of paths
 * (files and directories) that exist. Creating a directory or writing a
 * file adds its path; the pixel work of shrinking the image is opaque and is
 * represented only by whether it succeeds for a given source.
 */
module Thumbnails {
  import opened Wrappers
  import opened PathOps

  type FileSystem = set<string>

  /** Where thumbnails go: the caller's directory, or `thumbnails` beside the image. */
  function ThumbnailDir(imagePath: string, thumbnailDir: Option<string>): string {
    thumbnailDir.GetOr(Join(DirName(imagePath), "thumbnails"))
  }

  /** The thumbnail of `imagePath`: `thumb_<basename>` inside the thumbnail directory. */
  function ThumbnailPath(imagePath: string, thumbnailDir: Option<string>): string {
    Join(ThumbnailDir(imagePath, thumbnailDir), "thumb_" + BaseName(imagePath))
  }

  /** The path returned (None for a missing source) and the filesystem afterwards. */
  datatype Outcome = Outcome(result: Option<string>, fs: FileSystem)

  /**
   * Making sure `imagePath` has a thumbnail. `convertible` holds the sources
   * the imaging library can open, shrink and save; for any other source the
   * attempt fails and the original path is returned instead.
   */
  function CreateThumbnail(imagePath: string, thumbnailDir: Option<string>, fs: FileSystem,
                           convertible: set<string>): (r: Outcome)
    ensures r.result.None? <==> imagePath !in fs
    ensures r.result.None? ==> r.fs == fs
    ensures fs <= r.fs
    ensures r.fs <= fs + {ThumbnailDir(imagePath, thumbnailDir), ThumbnailPath(imagePath, thumbnailDir)}
    ensures r.result.Some? ==> ThumbnailDir(imagePath, thumbnailDir) in r.fs
    ensures r.result == Some(ThumbnailPath(imagePath, thumbnailDir)) || r.result == Some(imagePath) || r.result == None
    ensures r.result == Some(ThumbnailPath(imagePath, thumbnailDir)) ==> ThumbnailPath(imagePath, thumbnailDir) in r.fs
    ensures r.result != Some(ThumbnailPath(imagePath, thumbnailDir)) && r.result.Some? ==>
      ThumbnailPath(imagePath, thumbnailDir) !in fs && imagePath !in convertible
    ensures imagePath in fs && ThumbnailPath(imagePath, thumbnailDir) in fs ==>
      r.result == Some(ThumbnailPath(imagePath, thumbnailDir))
      && r.fs == fs + {ThumbnailDir(imagePath, thumbnailDir)}
  {
    if imagePath !in fs then Outcome(None, fs)
    else
      var dir := ThumbnailDir(imagePath, thumbnailDir);
      var withDir := fs + {dir};
      var target := Join(dir, "thumb_" + BaseName(imagePath));
      if target in withDir then Outcome(Some(target), withDir)
      else if imagePath in convertible then Outcome(Some(target), withDir + {target})
      else Outcome(Some(imagePath), withDir)
  }

  /**
   * The outcome for an existing source that has no thumbnail yet: a source
   * the imaging library converts gets its thumbnail written, and the
   * thumbnail path is returned; any other source gets its own path back,
   * with only the thumbnail directory added.
   */
  lemma CreateThumbnailFallback(imagePath: string, thumbnailDir: Option<string>, fs: FileSystem,
                                convertible: set<string>)
    requires imagePath in fs && ThumbnailPath(imagePath, thumbnailDir) !in fs
    ensures var r := CreateThumbnail(imagePath, thumbnailDir, fs, convertible);
            var dir := ThumbnailDir(imagePath, thumbnailDir);
            var thumb := ThumbnailPath(imagePath, thumbnailDir);
            && (imagePath in convertible ==> r.result == Some(thumb) && r.fs == fs + {dir, thumb})
            && (imagePath !in convertible ==> r.result == Some(imagePath) && r.fs == fs + {dir})
  {
  }

  /**
   * Asking twice is asking once: the second call returns what the first did
   * and leaves the filesystem exactly as the first call left it.
   */
  lemma CreateThumbnailIdempotent(imagePath: string, thumbnailDir: Option<string>, fs: FileSystem,
                                  convertible: set<string>)
    ensures var first := CreateThumbnail(imagePath, thumbnailDir, fs, convertible);
            CreateThumbnail(imagePath, thumbnailDir, first.fs, convertible) == first
  {
  }

  /**
   * The thumbnail lies directly in the thumbnail directory and is named
   * `thumb_` followed by the image's file name; with no directory given,
   * that directory is `thumbnails` beside the image.
   */
  lemma {:induction false} ThumbnailPathShape(imagePath: string, thumbnailDir: Option<string>)
    requires thumbnailDir.Some? ==> |thumbnailDir.value| > 0 && thumbnailDir.value[|thumbnailDir.value| - 1] != '/'
    ensures DirName(ThumbnailPath(imagePath, thumbnailDir)) == ThumbnailDir(imagePath, thumbnailDir)
    ensures BaseName(ThumbnailPath(imagePath, thumbnailDir)) == "thumb_" + BaseName(imagePath)
    ensures thumbnailDir.None? ==> ThumbnailDir(imagePath, thumbnailDir) == Join(DirName(imagePath), "thumbnails")
  {
    var dir := ThumbnailDir(imagePath, thumbnailDir);
    if thumbnailDir.None? {
      DefaultDirEndsInName(imagePath);
    }
    ThumbnailNameHasNoSlash(imagePath);
    JoinSplits(dir, "thumb_" + BaseName(imagePath));
  }

  /** The default thumbnail directory ends in the letter `s` of `thumbnails`. */
  lemma DefaultDirEndsInName(imagePath: string)
    ensures var dir := Join(DirName(imagePath), "thumbnails"); |dir| > 0 && dir[|dir| - 1] == 's'
  {
    var parent := DirName(imagePath);
    var dir := Join(parent, "thumbnails");
    assert dir == parent + "thumbnails" || dir == parent + "/" + "thumbnails";
  }

  /** A thumbnail's file name contains no slash. */
  lemma ThumbnailNameHasNoSlash(imagePath: string)
    ensures '/' !in "thumb_" + BaseName(imagePath)
  {
    var base := BaseName(imagePath);
    var name := "thumb_" + base;
    assert '/' !in base by {
      BaseNameIsLastComponent(imagePath);
    }
    forall k | 0 <= k < |name|
      ensures name[k] != '/'
    {
      if k >= 6 {
        assert name[k] == base[k - 6];
      }
    }
  }
}

=== FILE: wrappers.dfy ===
/** The optional-value type shared by the model: Python's `None` versus a present value. */
module Wrappers {

  datatype Option<+T> = None | Some(value: T) {

    /** The value when present, otherwise `default` (Python's `x if x is not None else default`). */
    function GetOr(default: T): T {
      match this
      case Some(v) => v
      case None => default
    }
  }
}
